=== FILE: README.md ===
# Tic-tac-toe minimax and co-star search, modelled in Dafny

This project models two small search programs and proves properties of them.

1. **Tic-tac-toe and minimax** (`Lab02/tictactoe/tictactoe/tictactoe.py`). It covers:
   - the 3×3 board, the side to move, the legal moves and the move function `result`;
   - the four line checks, `winner`, `terminal` and `utility`;
   - the exhaustive game-tree search `max_value`, `min_value` and `minimax`.
2. **Degrees of separation** (`cs50/Project_0/degrees/degrees.py`). It covers:
   - the part of `load_data` that fills the name, person and movie indices from rows that are already parsed;
   - `neighbors_for_person`;
   - the breadth-first search `shortest_path`, with its FIFO frontier of parent-linked nodes and the walk back along parents.

Modules:

| file | module | contents |
|---|---|---|
| `wrappers.dfy` | `Wrappers` | `Option` and `Result` |
| `tictactoe.dfy` | `TicTacToe` | board, `Player`, `Actions`, `Play` (the model of `result`), the line checks, `Winner`, `Terminal`, `Utility` |
| `minimax.dfy` | `Minimax` | `MaxValue`, `MinValue`, `Minimax` |
| `movies.dfy` | `Movies` | the three indices and the row folds of `load_data` |
| `costar.dfy` | `CoStar` | `Neighbors`, co-star paths, the sets of people reachable within `k` links |
| `degrees.dfy` | `Degrees` | search nodes, the frontier, `ShortestPath` and the path reconstruction |

How the code is represented:

- **Board:** a `seq<seq<Cell>>` of shape 3×3. A square is `Empty` or `Filled(X)` / `Filled(O)`.
- **Counting loops:** the nested loops of `tictactoe.py` visit squares in row-major order. The model counts over that same order with `CountUpTo`. Together with a `Selection`, this one count serves `player`, `checkFirstDig` and `checkSecondDig`.
- **Errors:**
  - `result` raises on an illegal move, so `Play` returns a `Result`.
  - `utility` implicitly returns `None` on a board that is not finished, so `Utility` returns an `Option`.
  - `shortest_path` can end in two error outcomes: `NoSolution` when the frontier runs dry (the `raise` at line 116), and `MissingKey` when a lookup inside `neighbors_for_person` raises `KeyError`.
- **Boards are values.** `result` deep-copies the board before writing to it. In the model the input board of `Play` cannot change, because boards are immutable values.
- **Search outcome vs. description.** The docstring of `shortest_path` and the caller `main` both expect `None` when there is no path. The code raises instead. The model follows the code: an error outcome, `Failure(NoSolution)`.

## Model

| member | source | states |
|---|---|---|
| TicTacToe.InitialState | Lab02/tictactoe/tictactoe/tictactoe.py:13-19 | every square of the starting board is empty |
| TicTacToe.InitialStateFacts | Lab02/tictactoe/tictactoe/tictactoe.py:13-56 | on the starting board X moves first, the counts are balanced, all nine squares are empty, and the legal moves are exactly the nine coordinates |
| TicTacToe.Player | Lab02/tictactoe/tictactoe/tictactoe.py:22-39 | on every board the side to move has no more marks than the other, and X moves on a tie; on a board reached by alternating play, X moves exactly when the counts are equal |
| TicTacToe.PlayAlternates | Lab02/tictactoe/tictactoe/tictactoe.py:22-39 | a legal move on a board reached by alternating play keeps the counts balanced and hands the turn to the other side |
| TicTacToe.ScanEmpty | Lab02/tictactoe/tictactoe/tictactoe.py:44-56 | the row-major scan lists exactly the empty on-board squares, each once, in scan order, and as many as there are empty squares |
| TicTacToe.Actions | Lab02/tictactoe/tictactoe/tictactoe.py:44-56 | a move is legal exactly when it is an on-board empty square; the number of legal moves is the number of empty squares, so a full board has none |
| TicTacToe.Play | Lab02/tictactoe/tictactoe/tictactoe.py:60-70 | fails exactly on moves outside `actions`; otherwise the chosen square holds the mover's mark, every other square is unchanged, the empty count drops by one, the mover's count rises by one and the opponent's count is unchanged |
| TicTacToe.CountAfterPut | Lab02/tictactoe/tictactoe/tictactoe.py:67-69 | overwriting one square changes every count by what left that square and what arrived in it |
| TicTacToe.RowFrom | Lab02/tictactoe/tictactoe/tictactoe.py:72-76 | the early-return loop over rows `i..2` succeeds exactly when one of those rows, taken from the eight-line table, belongs to the mark |
| TicTacToe.CheckRow | Lab02/tictactoe/tictactoe/tictactoe.py:72-76 | `checkRow` succeeds exactly when the mark fills one of the three row lines |
| TicTacToe.ColFrom | Lab02/tictactoe/tictactoe/tictactoe.py:78-82 | the early-return loop over columns `i..2` succeeds exactly when one of those columns, taken from the eight-line table, belongs to the mark |
| TicTacToe.CheckCol | Lab02/tictactoe/tictactoe/tictactoe.py:78-82 | `checkCol` succeeds exactly when the mark fills one of the three column lines |
| TicTacToe.MainDiagonalCount | Lab02/tictactoe/tictactoe/tictactoe.py:94-99 | the nine-square scan with the `row == col` filter counts exactly the hits on (0,0), (1,1) and (2,2) |
| TicTacToe.AntiDiagonalCount | Lab02/tictactoe/tictactoe/tictactoe.py:106-111 | the nine-square scan with the `len(board) - row - 1 == col` filter counts exactly the hits on (0,2), (1,1) and (2,0) |
| TicTacToe.CheckFirstDig | Lab02/tictactoe/tictactoe/tictactoe.py:94-103 | a count of 3 on the main diagonal happens exactly when the mark fills the main-diagonal line |
| TicTacToe.CheckSecondDig | Lab02/tictactoe/tictactoe/tictactoe.py:106-115 | a count of 3 on the anti-diagonal happens exactly when the mark fills the anti-diagonal line |
| TicTacToe.ChecksFindLines | Lab02/tictactoe/tictactoe/tictactoe.py:72-115 | the row, column and both diagonal checks together succeed exactly when the mark fills one of the eight lines |
| TicTacToe.Winner | Lab02/tictactoe/tictactoe/tictactoe.py:119-128 | X when X fills a line, even if O also does; O when only O does; nobody otherwise |
| TicTacToe.Terminal | Lab02/tictactoe/tictactoe/tictactoe.py:131-143 | the game is over exactly when there is a winner or no legal move is left, that is, when some side fills a line or no square is empty |
| TicTacToe.Utility | Lab02/tictactoe/tictactoe/tictactoe.py:146-156 | defined exactly on finished boards; 1 exactly when X fills a line, -1 exactly when only O does, 0 on a finished board with no line |
| TicTacToe.DrawExample | Lab02/tictactoe/tictactoe/tictactoe.py:131-156 | the full board XOX/XOO/OXX is finished, has no winner and scores 0 |
| TicTacToe.XWinsExample | Lab02/tictactoe/tictactoe/tictactoe.py:119-156 | the board XXX/OO_/___ is won by X, is finished and scores 1 |
| Minimax.Child | Lab02/tictactoe/tictactoe/tictactoe.py:162-171 | a legal move leaves one empty square fewer, the measure that makes the mutual recursion terminate |
| Minimax.SeqMax | Lab02/tictactoe/tictactoe/tictactoe.py:159-164 | the fold with `max` yields an element of the list that no other element exceeds |
| Minimax.SeqMin | Lab02/tictactoe/tictactoe/tictactoe.py:167-172 | the fold with `min` yields an element of the list that no other element undercuts |
| Minimax.ScanIsActions | Lab02/tictactoe/tictactoe/tictactoe.py:162-171 | on an unfinished board the scan folded over is non-empty and holds exactly the legal moves |
| Minimax.MaxValue | Lab02/tictactoe/tictactoe/tictactoe.py:158-164 | the value is -1, 0 or 1, and on a finished board it is the utility |
| Minimax.MinValue | Lab02/tictactoe/tictactoe/tictactoe.py:166-172 | the value is -1, 0 or 1, and on a finished board it is the utility |
| Minimax.ChildMins | Lab02/tictactoe/tictactoe/tictactoe.py:162-163 | the values `max_value` folds over: one per legal move in scan order, each in -1..1 and equal to that child's `min_value` |
| Minimax.ChildMaxes | Lab02/tictactoe/tictactoe/tictactoe.py:170-171 | the values `min_value` folds over: one per legal move in scan order, each in -1..1 and equal to that child's `max_value` |
| Minimax.MaxValueIsBestChild | Lab02/tictactoe/tictactoe/tictactoe.py:158-164 | on an unfinished board `max_value` is at least the `min_value` of every child and equals that of some child |
| Minimax.MinValueIsBestChild | Lab02/tictactoe/tictactoe/tictactoe.py:166-172 | on an unfinished board `min_value` is at most the `max_value` of every child and equals that of some child |
| Minimax.FirstBest | Lab02/tictactoe/tictactoe/tictactoe.py:188-200 | picks a value that is best for the side to move, and the first such value, as the head of a stable sort does |
| Minimax.Minimax | Lab02/tictactoe/tictactoe/tictactoe.py:178-200 | no move exactly on finished boards; otherwise a legal move whose child value is the board's value and is at least as good for the mover as every other legal move |
| Minimax.Plays | Lab02/tictactoe/tictactoe/tictactoe.py:186-198 | the `plays` list: non-empty, one entry per scanned move, and every legal move has an entry holding the value the mover looks at for it (`min_value` of the child for X, `max_value` for O) |
| Minimax.BestIsOptimal | Lab02/tictactoe/tictactoe/tictactoe.py:186-200 | the move heading the sorted plays is legal, its child value is the board's value, and no legal move is better for the mover |
| Minimax.PlaysCoverActions | Lab02/tictactoe/tictactoe/tictactoe.py:188-200 | the best of the plays is at least as good for the mover as the child value of every legal move |
| Movies.Lower | cs50/Project_0/degrees/degrees.py:29-32 | the key has the name's length, and each character is lower-cased |
| Movies.AddPerson | cs50/Project_0/degrees/degrees.py:24-32 | the person record is replaced by one with no movies; the id joins the set under the lower-cased name and nothing else is filed |
| Movies.LoadPeople | cs50/Project_0/degrees/degrees.py:23-32 | the people are the old ones plus the row ids; a row id's movies are reset to empty; an id is filed under a key exactly when it was before or some row gives it that lower-cased name |
| Movies.AddMovie | cs50/Project_0/degrees/degrees.py:38-42 | the movie ids grow by exactly the row id, whose stars are reset to empty; every other movie record, the people and the name index are unchanged |
| Movies.LoadMovies | cs50/Project_0/degrees/degrees.py:37-42 | the movies are the old ones plus the row ids, and a row id's stars are reset to empty |
| Movies.AddStar | cs50/Project_0/degrees/degrees.py:48-56 | an unknown person changes nothing; a known person gains the movie id even when the movie is unknown; the movie gains the person only when both are known |
| Movies.AddStarKeepsInvariants | cs50/Project_0/degrees/degrees.py:51-54 | a stars row keeps every star a known person, and keeps the two directions of the star relation in agreement |
| Movies.LoadStars | cs50/Project_0/degrees/degrees.py:47-56 | a known person's movies grow by exactly the movies their rows name; a known movie's stars grow by exactly the known people its rows name; the key sets are unchanged |
| Movies.LoadData | cs50/Project_0/degrees/degrees.py:16-56 | the people, movies and name index are exactly those the rows define; a person's movies are exactly the movie ids paired with them, including unknown ones; a movie's stars are exactly the known people paired with it |
| Movies.DanglingMovieId | cs50/Project_0/degrees/degrees.py:51-56 | one person row, no movie rows and one stars row naming them load into a person whose movie id is missing from the movie index |
| Movies.AddStarSkipping | cs50/Project_0/degrees/degrees.py:48-56 | the key sets stay; a person gains a movie exactly when the row names that person and a known movie, and a movie gains a star exactly when the row names that movie and a known person, so a row with an unknown id adds no link |
| Movies.AddStarSkippingKeepsWellFormed | cs50/Project_0/degrees/degrees.py:48-56 | the skipping row update keeps the indices well formed: every star known, every movie of a person known, both directions in agreement |
| Movies.LoadStarsSkipping | cs50/Project_0/degrees/degrees.py:47-56 | a person's movies grow only by known movies their rows name; stars grow as with `LoadStars`; well-formed indices stay well formed |
| Movies.LoadDataSkipping | cs50/Project_0/degrees/degrees.py:16-56 | as `LoadData`, except that a person's movies are only the known movies paired with them, so the result is well formed |
| CoStar.Neighbors | cs50/Project_0/degrees/degrees.py:174-184 | fails with a missing key exactly when the person, or one of their movies, is not indexed; otherwise the pairs are exactly (movie of the person, star of that movie) |
| CoStar.NeighborsShareAMovie | cs50/Project_0/degrees/degrees.py:179-184 | with both directions in agreement, every neighbour pair names a movie both people starred in, and a person is their own neighbour through each of their movies |
| CoStar.NeighborsOfKnownPerson | cs50/Project_0/degrees/degrees.py:179-184 | on well-formed indices the lookup for a known person succeeds and yields only known people |
| CoStar.PathLinksShareMovies | cs50/Project_0/degrees/degrees.py:126-129 | with both directions in agreement, each link of a co-star path names a movie in which both the person before it (the source for the first link) and the person after it starred |
| CoStar.ExtendPath | cs50/Project_0/degrees/degrees.py:126-129 | extending a co-star path by a neighbour pair of its end gives a co-star path ending at that neighbour |
| CoStar.Shortcut | cs50/Project_0/degrees/degrees.py:135-143 | cutting out a stretch of a path that returns to a person already visited leaves a shorter co-star path with the same end |
| CoStar.ShortestIsSimple | cs50/Project_0/degrees/degrees.py:135-143 | a shortest path never returns to the source and never visits a person twice |
| CoStar.PathEndIsReached | cs50/Project_0/degrees/degrees.py:126-131 | the end of a co-star path with n links is reachable within n links |
| CoStar.ClosedSetHoldsReach | cs50/Project_0/degrees/degrees.py:112-127 | a set holding the source and closed under co-star links holds everyone reachable from the source |
| Degrees.Reverse | cs50/Project_0/degrees/degrees.py:139-140 | the reversed list has the same length, with the positions mirrored |
| Degrees.Backtrack | cs50/Project_0/degrees/degrees.py:132-144 | collecting (movie, person) while walking to the root, reversing and zipping rebuilds exactly the node's path from the start |
| Degrees.Zip | cs50/Project_0/degrees/degrees.py:141-143 | `zip` pairs the two lists position by position and stops at the shorter one |
| Degrees.ContainsState | cs50/Project_0/degrees/degrees.py:127 | true exactly when some frontier node stands on the person |
| Degrees.ChildChain | cs50/Project_0/degrees/degrees.py:129 | a child made from a neighbour pair is one link deeper and still stands at the end of its co-star path |
| Degrees.FreshChainIsShortest | cs50/Project_0/degrees/degrees.py:92-96 | a node first reached at depth d, with no path of fewer links to its person, carries a shortest path |
| Degrees.KnownSourceNeverMisses | cs50/Project_0/degrees/degrees.py:174-184 | on well-formed indices, from a known source, looking up the neighbours of anyone a co-star path reaches succeeds |
| Degrees.PopKeeps | cs50/Project_0/degrees/degrees.py:118-123 | removing the oldest frontier node and marking it explored keeps the search invariants: no person queued twice, explored and queued people disjoint, the target unseen |
| Degrees.AddChildKeeps | cs50/Project_0/degrees/degrees.py:127-145 | queueing a child that is neither queued nor explored keeps the frontier duplicate-free and ordered by depth |
| Degrees.ClosedAfterExpand | cs50/Project_0/degrees/degrees.py:126-145 | once all neighbours of the popped person are explored or queued, every co-star of an explored person is explored or queued |
| Degrees.CoverageAdvances | cs50/Project_0/degrees/degrees.py:105-145 | the FIFO order keeps everyone within the depth of the frontier's head explored or queued |
| Degrees.NothingBeyond | cs50/Project_0/degrees/degrees.py:115-116 | when the frontier is empty, no co-star path from the source reaches an unexplored person |
| Degrees.Expand | cs50/Project_0/degrees/degrees.py:126-145 | in any iteration order, either returns a child on the target that is one link deeper and first reached, or queues every neighbour not yet seen, keeping the invariants |
| Degrees.ShortestPath | cs50/Project_0/degrees/degrees.py:91-145 | a returned path is a shortest co-star path to the target, non-empty, avoiding the source, with no person twice; "no solution" means no co-star path reaches the target; a failed lookup names a reachable person with an index gap, which well-formed indices and a known source exclude; a person searched against themselves always fails |
| Degrees.ShortestPathCorrected | cs50/Project_0/degrees/degrees.py:91-97 | a person is linked to themselves by the empty path; otherwise as `ShortestPath`, and "no solution" means no co-star path at all |
| Degrees.SelfSearchExample | cs50/Project_0/degrees/degrees.py:123-131 | on a one-person database the empty path is a shortest path from the person to themselves, yet the search raises "no solution" |
| Degrees.Chain3Unique | cs50/Project_0/degrees/degrees.py:91-97 | on the chain A—m1—B—m2—C, the only co-star path from A to C of at most two links that never returns to A is [(m1, B), (m2, C)] |
| Degrees.ChainExample | cs50/Project_0/degrees/degrees.py:91-145 | on the chain A—m1—B—m2—C, the search from A to C returns [(m1, B), (m2, C)] |
| Degrees.DanglingIdBreaksNeighbors | cs50/Project_0/degrees/degrees.py:174-184 | after loading one person row, no movie rows and the stars row ("1", "99"), `neighbors_for_person` for that person raises `KeyError` |

## Left out

- Reading the CSV files, `main` and `person_id_for_name`. These are file and console I/O, `sys.exit` and interactive disambiguation. The model starts from parsed rows.
- The `util` module (`Node`, `StackFrontier`, `QueueFrontier`) is not part of this model. The frontier is a `seq<Node>` used as a FIFO queue; `ContainsState` is its membership test by person.
- `num_explored` in `shortest_path` is counted but never read, so the model drops it.
- Set iteration order. `actions` and `neighbors_for_person` return Python sets, and the order in which they are iterated is not modelled.
  - `ShortestPath` picks the next neighbour with an arbitrary choice, so its contract holds for every order.
  - The search models fold the legal moves in row-major scan order.
- Minimax.Minimax: states that the move is optimal for the side to move, not which of several optimal moves comes out. The `sorted(...)[0]` tie-break of `minimax` depends on set iteration order. `FirstBest` takes the first optimal move in scan order.
- Minimax.MaxValue: the `±math.inf` seeds of the folds are floats that never survive a fold over a non-empty move list. The model folds integers over that non-empty list.
- Minimax.MaxValue: the value of `InitialState()` (0, a draw under optimal play) is not proved. Proving it means unfolding the whole game tree of several hundred thousand boards inside the verifier, far beyond what one proof obligation can carry. The contracts characterise every board's value through its children instead.
- Movies.Lower: lower-cases ASCII letters only. Python's `str.lower` also maps other Unicode letters, and the model does not cover that.
- Movies.LoadData: states which person and movie ids exist and which links they carry, but not the name and birth (title and year) fields a repeated id ends up with. The dictionary assignment in `load_data` keeps the last row's fields.
- `check_diagonals` (lines 84-92) is commented out in `tictactoe.py` and is not modelled.

## Findings

| source | as written | input that shows it | evidently intended | confidence | as-written member | corrected member |
|---|---|---|---|---|---|---|
| cs50/Project_0/degrees/degrees.py:119-131 | the start person is marked explored before any neighbour is compared with the target, and an explored person is never made a child, so a search from a person to themselves never matches the target: it exhausts the component and raises "no solution" (on well-formed indices; a `KeyError` is possible otherwise) | source and target both the same person, e.g. the one-person database `Solo` with source = target = "1" | return the empty path, the shortest list of pairs connecting a person to themselves | not executed | Degrees.SelfSearchExample | Degrees.ShortestPathCorrected |
| cs50/Project_0/degrees/degrees.py:51-56 | for a stars row whose person is known but whose movie is not, line 51 adds the movie id to the person before line 54 raises `KeyError`; the id stays behind, and a later `neighbors_for_person` for that person raises `KeyError` at line 182 | one person row "1", no movie rows, one stars row ("1", "99") | skip the malformed row entirely, so that every movie of a person is a known movie | not executed | Degrees.DanglingIdBreaksNeighbors | Movies.LoadDataSkipping |


=== FILE: costar.dfy ===
/** The co-star graph of the degrees program: `neighbors_for_person`, paths
    of (movie, person) links, and the sets of people reachable in a given
    number of steps. */
module CoStar {
  import opened Wrappers
  import opened Movies

  /** One step of a path: the shared movie and the person reached. */
  type Link = (MovieId, PersonId)

  /** The two ways a search can end without a path: the frontier ran dry
      ("no solution"), or a lookup in the indices failed (`KeyError`). */
  datatype SearchError = NoSolution | MissingKey

  /** `x` stars in movie `m` (as recorded in `x`'s own record) and `m` lists
      `q` among its stars: the relation the search expands. */
  predicate Edge(db: Db, x: PersonId, m: MovieId, q: PersonId) {
    x in db.people && m in db.people[x].movies && m in db.movies && q in db.movies[m].stars
  }

  /** `neighbors_for_person`: every (movie, co-star) pair of `p`, including
      `p` itself for each of its movies. Looking up an unknown person, or a
      movie id missing from the movie index, raises `KeyError`. */
  function Neighbors(db: Db, p: PersonId): (r: Result<set<Link>, SearchError>)
    ensures r.Failure? <==> p !in db.people || exists m :: m in db.people[p].movies && m !in db.movies
    ensures r.Failure? ==> r.error == MissingKey
    ensures r.Success? ==> forall m, q :: (m, q) in r.value <==> Edge(db, p, m, q)
  {
    if p !in db.people then Failure(MissingKey)
    else if exists m :: m in db.people[p].movies && m !in db.movies then Failure(MissingKey)
    else Success(set m, q | m in db.people[p].movies && q in db.movies[m].stars :: (m, q))
  }

  /** On a database whose star relation agrees in both directions, every
      neighbour link names a movie both people starred in, and a person is
      their own neighbour through each of their movies. */
  lemma NeighborsShareAMovie(db: Db, p: PersonId)
    requires Symmetric(db) && Neighbors(db, p).Success?
    ensures forall m, q :: (m, q) in Neighbors(db, p).value ==>
              p in db.movies[m].stars && q in db.movies[m].stars
    ensures forall m :: m in db.people[p].movies ==> (m, p) in Neighbors(db, p).value
  {
  }

  /** On a well-formed database the lookup never fails for a known person. */
  lemma NeighborsOfKnownPerson(db: Db, p: PersonId)
    requires WellFormed(db) && p in db.people
    ensures Neighbors(db, p).Success?
    ensures forall m, q :: (m, q) in Neighbors(db, p).value ==> q in db.people
  {
  }

  // ---------------------------------------------------------------------
  // Paths

  /** The person a path stands on before its `i`-th link. */
  function Before(source: PersonId, path: seq<Link>, i: int): PersonId
    requires 0 <= i <= |path|
  {
    if i == 0 then source else path[i - 1].1
  }

  /** The person a path ends at. */
  function Last(source: PersonId, path: seq<Link>): PersonId {
    Before(source, path, |path|)
  }

  /** Every link of `path` is an edge out of the person before it. */
  ghost predicate IsCoStarPath(db: Db, source: PersonId, path: seq<Link>) {
    forall i {:trigger Before(source, path, i)} :: 0 <= i < |path| ==>
      Edge(db, Before(source, path, i), path[i].0, path[i].1)
  }

  /** `path` leads from `source` to `target` with no co-star path between
      them being shorter. */
  ghost predicate Shortest(db: Db, source: PersonId, target: PersonId, path: seq<Link>) {
    && IsCoStarPath(db, source, path)
    && Last(source, path) == target
    && forall p :: IsCoStarPath(db, source, p) && Last(source, p) == target ==> |path| <= |p|
  }

  lemma ExtendPath(db: Db, source: PersonId, path: seq<Link>, m: MovieId, q: PersonId)
    requires IsCoStarPath(db, source, path) && Edge(db, Last(source, path), m, q)
    ensures IsCoStarPath(db, source, path + [(m, q)])
    ensures Last(source, path + [(m, q)]) == q
  {
    var p' := path + [(m, q)];
    forall i | 0 <= i < |p'| ensures Edge(db, Before(source, p', i), p'[i].0, p'[i].1) {
      if i < |path| {
        assert Before(source, p', i) == Before(source, path, i);
      }
    }
  }

  /** Cutting out the stretch of a path that returns to a person already
      visited leaves a shorter co-star path to the same end. */
  lemma Shortcut(db: Db, source: PersonId, path: seq<Link>, i: int, j: int)
    requires IsCoStarPath(db, source, path)
    requires 0 <= i <= j < |path| && Before(source, path, i) == path[j].1
    ensures IsCoStarPath(db, source, path[..i] + path[j + 1..])
    ensures Last(source, path[..i] + path[j + 1..]) == Last(source, path)
    ensures |path[..i] + path[j + 1..]| < |path|
  {
    var p' := path[..i] + path[j + 1..];
    forall k | 0 <= k < |p'| ensures Edge(db, Before(source, p', k), p'[k].0, p'[k].1) {
      var k' := ShortcutIndex(source, path, i, j, k);
      assert Edge(db, Before(source, path, k'), path[k'].0, path[k'].1);
    }
    var _ := ShortcutIndex(source, path, i, j, |p'|);
  }

  /** Where the `k`-th position of the shortened path sits in the original
      path, and that it stands on the same person there. */
  lemma ShortcutIndex(source: PersonId, path: seq<Link>, i: int, j: int, k: int) returns (k': int)
    requires 0 <= i <= j < |path| && Before(source, path, i) == path[j].1
    requires 0 <= k <= |path| - (j + 1 - i)
    ensures k' == (if k < i then k else k + j + 1 - i) && 0 <= k' <= |path|
    ensures Before(source, path[..i] + path[j + 1..], k) == Before(source, path, k')
    ensures k < |path| - (j + 1 - i) ==> (path[..i] + path[j + 1..])[k] == path[k']
  {
    var p' := path[..i] + path[j + 1..];
    k' := if k < i then k else k + j + 1 - i;
    if 0 < k < i {
      assert p'[k - 1] == path[k - 1];
    } else if k > i {
      assert p'[k - 1] == path[k' - 1];
    }
  }

  /** A shortest path never returns to the source and never visits a person
      twice. */
  lemma ShortestIsSimple(db: Db, source: PersonId, target: PersonId, path: seq<Link>)
    requires Shortest(db, source, target, path)
    ensures forall i :: 0 <= i < |path| ==> path[i].1 != source
    ensures forall i, j :: 0 <= i < j < |path| ==> path[i].1 != path[j].1
  {
    forall j | 0 <= j < |path| ensures path[j].1 != source {
      if path[j].1 == source {
        Shortcut(db, source, path, 0, j);
        assert false;
      }
    }
    forall i, j | 0 <= i < j < |path| ensures path[i].1 != path[j].1 {
      if path[i].1 == path[j].1 {
        assert Before(source, path, i + 1) == path[j].1;
        Shortcut(db, source, path, i + 1, j);
        assert false;
      }
    }
  }

  /** On a database whose star relation agrees in both directions, each
      link of a co-star path names a movie that both the person before the
      link and the person after it starred in. */
  lemma PathLinksShareMovies(db: Db, source: PersonId, path: seq<Link>)
    requires Symmetric(db) && IsCoStarPath(db, source, path)
    ensures forall i :: 0 <= i < |path| ==>
              && path[i].0 in db.movies
              && path[i].1 in db.movies[path[i].0].stars
              && Before(source, path, i) in db.movies[path[i].0].stars
  {
    forall i | 0 <= i < |path|
      ensures && path[i].0 in db.movies
              && path[i].1 in db.movies[path[i].0].stars
              && Before(source, path, i) in db.movies[path[i].0].stars
    {
      assert Edge(db, Before(source, path, i), path[i].0, path[i].1);
    }
  }

  // ---------------------------------------------------------------------
  // Reachability

  /** Everyone one edge away from a member of `s`. */
  ghost function Step(db: Db, s: set<PersonId>): set<PersonId> {
    set x, m, q | x in s && x in db.people && m in db.people[x].movies && m in db.movies
                  && q in db.movies[m].stars :: q
  }

  /** The people reachable from `source` in at most `k` edges. */
  ghost function Reach(db: Db, source: PersonId, k: nat): set<PersonId> {
    if k == 0 then {source}
    else Reach(db, source, k - 1) + Step(db, Reach(db, source, k - 1))
  }

  lemma StepMember(db: Db, s: set<PersonId>, x: PersonId, m: MovieId, q: PersonId)
    requires x in s && Edge(db, x, m, q)
    ensures q in Step(db, s)
  {
  }

  lemma StepSource(db: Db, s: set<PersonId>, q: PersonId)
    requires q in Step(db, s)
    ensures exists x, m :: x in s && Edge(db, x, m, q)
  {
    var x, m, q' :| x in s && x in db.people && m in db.people[x].movies && m in db.movies
                    && q' in db.movies[m].stars && q' == q;
    assert Edge(db, x, m, q);
  }

  lemma {:induction false} ReachGrows(db: Db, source: PersonId, j: nat, k: nat)
    requires j <= k
    ensures Reach(db, source, j) <= Reach(db, source, k)
  {
    if j < k {
      ReachGrows(db, source, j, k - 1);
    }
  }

  /** The end of a co-star path with `n` links is reachable in `n` edges. */
  lemma {:induction false} PathEndIsReached(db: Db, source: PersonId, path: seq<Link>)
    requires IsCoStarPath(db, source, path)
    ensures Last(source, path) in Reach(db, source, |path|)
  {
    if |path| > 0 {
      var init := path[..|path| - 1];
      assert IsCoStarPath(db, source, init) by {
        forall i | 0 <= i < |init| ensures Edge(db, Before(source, init, i), init[i].0, init[i].1) {
          assert init[i] == path[i];
          assert Before(source, init, i) == Before(source, path, i);
        }
      }
      PathEndIsReached(db, source, init);
      var n := |path| - 1;
      assert Before(source, path, n) == Last(source, init);
      StepMember(db, Reach(db, source, n), Last(source, init), path[n].0, path[n].1);
    }
  }

  /** A set holding the source and closed under edges holds everything
      reachable from the source. */
  lemma {:induction false} ClosedSetHoldsReach(db: Db, source: PersonId, s: set<PersonId>, k: nat)
    requires source in s
    requires forall x, m, q :: x in s && Edge(db, x, m, q) ==> q in s
    ensures Reach(db, source, k) <= s
  {
    if k > 0 {
      ClosedSetHoldsReach(db, source, s, k - 1);
      forall q | q in Step(db, Reach(db, source, k - 1)) ensures q in s {
        StepSource(db, Reach(db, source, k - 1), q);
        var x, m :| x in Reach(db, source, k - 1) && Edge(db, x, m, q);
      }
    }
  }
}

=== FILE: degrees.dfy ===
/** Breadth-first search for the shortest chain of co-stars between two
    people (`shortest_path`), with its FIFO frontier of parent-linked nodes
    and the walk back along the parents that turns the goal node into a path. */
module Degrees {
  import opened Wrappers
  import opened Movies
  import opened CoStar

  /** A search node: the person it stands on, and for every node but the
      start, the node it was expanded from and the movie that links them. */
  datatype Node = Start(state: PersonId) | Reached(state: PersonId, parent: Node, action: MovieId)

  /** The links from the start node down to `n`. */
  function Trace(n: Node): seq<Link> {
    match n
    case Start(_) => []
    case Reached(s, p, m) => Trace(p) + [(m, s)]
  }

  /** The number of links between the start node and `n`. */
  function Depth(n: Node): nat {
    |Trace(n)|
  }

  // ---------------------------------------------------------------------
  // Path reconstruction

  /** `list.reverse`. */
  function Reverse<T>(s: seq<T>): (r: seq<T>)
    ensures |r| == |s|
    ensures forall i :: 0 <= i < |s| ==> r[i] == s[|s| - 1 - i]
  {
    if |s| == 0 then [] else [s[|s| - 1]] + Reverse(s[..|s| - 1])
  }

  /** `zip`: takes one element from each sequence until either runs out;
      the result pairs them position by position up to the shorter length. */
  function Zip<A, B>(xs: seq<A>, ys: seq<B>): (r: seq<(A, B)>)
    ensures |r| == (if |xs| <= |ys| then |xs| else |ys|)
    ensures forall i :: 0 <= i < |r| ==> r[i] == (xs[i], ys[i])
  {
    if |xs| == 0 || |ys| == 0 then [] else [(xs[0], ys[0])] + Zip(xs[1..], ys[1..])
  }

  lemma ReverseZipPush<A, B>(xs: seq<A>, ys: seq<B>, a: A, b: B)
    requires |xs| == |ys|
    ensures Zip(Reverse(xs + [a]), Reverse(ys + [b])) == [(a, b)] + Zip(Reverse(xs), Reverse(ys))
  {
    var l := Zip(Reverse(xs + [a]), Reverse(ys + [b]));
    var r := [(a, b)] + Zip(Reverse(xs), Reverse(ys));
    assert |l| == |r|;
    forall i | 0 <= i < |l| ensures l[i] == r[i] {
      if i > 0 {
        assert Reverse(xs + [a])[i] == (xs + [a])[|xs| - i] == xs[|xs| - i] == Reverse(xs)[i - 1];
        assert Reverse(ys + [b])[i] == (ys + [b])[|ys| - i] == ys[|ys| - i] == Reverse(ys)[i - 1];
      }
    }
  }

  /** The walk back along the parents of the goal node: collect the movies
      and the people from the goal up to the start, reverse both lists and
      pair them up. The result is exactly the node's path. */
  method Backtrack(n: Node) returns (path: seq<Link>)
    ensures path == Trace(n)
  {
    var movies: seq<MovieId> := [];
    var people: seq<PersonId> := [];
    var cur := n;
    while cur.Reached?
      invariant |movies| == |people|
      invariant Trace(n) == Trace(cur) + Zip(Reverse(movies), Reverse(people))
      decreases cur
    {
      assert Trace(cur) == Trace(cur.parent) + [(cur.action, cur.state)];
      ReverseZipPush(movies, people, cur.action, cur.state);
      movies := movies + [cur.action];
      people := people + [cur.state];
      cur := cur.parent;
    }
    movies := Reverse(movies);
    people := Reverse(people);
    path := Zip(movies, people);
  }

  // ---------------------------------------------------------------------
  // The frontier

  /** The people the nodes of a frontier stand on. */
  ghost function States(frontier: seq<Node>): set<PersonId> {
    set n | n in frontier :: n.state
  }

  /** `QueueFrontier.contains_state`: some node of the frontier stands on `q`. */
  function ContainsState(frontier: seq<Node>, q: PersonId): (b: bool)
    ensures b <==> q in States(frontier)
  {
    if |frontier| == 0 then false
    else
      assert States(frontier) == {frontier[0].state} + States(frontier[1..]) by {
        assert forall n :: n in frontier <==> n == frontier[0] || n in frontier[1..];
      }
      frontier[0].state == q || ContainsState(frontier[1..], q)
  }

  lemma StatesOfAppend(frontier: seq<Node>, c: Node)
    ensures States(frontier + [c]) == States(frontier) + {c.state}
  {
    assert forall n :: n in frontier + [c] <==> n in frontier || n == c;
  }

  /** Every person any movie of the database lists as a star. */
  ghost function AllStars(db: Db): set<PersonId> {
    set m, q | m in db.movies && q in db.movies[m].stars :: q
  }

  // ---------------------------------------------------------------------
  // Search invariants

  /** `n` stands at the end of a co-star path from `source`: its own trace. */
  ghost predicate Chain(db: Db, source: PersonId, n: Node) {
    IsCoStarPath(db, source, Trace(n)) && Last(source, Trace(n)) == n.state
  }

  /** `n` was not reachable in fewer links than it took to reach it. */
  ghost predicate Fresh(db: Db, source: PersonId, n: Node) {
    Depth(n) > 0 ==> n.state !in Reach(db, source, Depth(n) - 1)
  }

  /** No two nodes of the frontier stand on the same person. */
  ghost predicate Distinct(frontier: seq<Node>) {
    forall i, j :: 0 <= i < j < |frontier| ==> frontier[i].state != frontier[j].state
  }

  /** The frontier is ordered by depth and holds at most two layers, `h`
      and `h + 1`. */
  ghost predicate Layered(frontier: seq<Node>, h: nat) {
    && (forall i :: 0 <= i < |frontier| ==> h <= Depth(frontier[i]) <= h + 1)
    && (forall i, j :: 0 <= i <= j < |frontier| ==> Depth(frontier[i]) <= Depth(frontier[j]))
  }

  /** Every co-star of a member of `e` lies in `s`. */
  ghost predicate Closed(db: Db, e: set<PersonId>, s: set<PersonId>) {
    forall x, m, q :: x in e && Edge(db, x, m, q) ==> q in s
  }

  /** What holds of the explored set and the frontier between any two
      steps of the search. */
  ghost predicate SearchState(db: Db, source: PersonId, target: PersonId,
                              explored: set<PersonId>, frontier: seq<Node>) {
    && (forall n :: n in frontier ==> Chain(db, source, n) && Fresh(db, source, n))
    && Distinct(frontier)
    && explored !! States(frontier)
    && explored + States(frontier) <= {source} + AllStars(db)
    && source in explored + States(frontier)
    && (source != target ==> target !in explored + States(frontier))
  }

  // ---------------------------------------------------------------------
  // Lemmas about single search steps

  lemma ChildChain(db: Db, source: PersonId, x: Node, m: MovieId, q: PersonId)
    requires Chain(db, source, x) && Edge(db, x.state, m, q)
    ensures Chain(db, source, Reached(q, x, m))
    ensures Depth(Reached(q, x, m)) == Depth(x) + 1
  {
    ExtendPath(db, source, Trace(x), m, q);
  }

  /** A node reached by a co-star path no shorter path reaches is at the
      end of a shortest path. */
  lemma FreshChainIsShortest(db: Db, source: PersonId, n: Node)
    requires Chain(db, source, n) && Fresh(db, source, n)
    ensures Shortest(db, source, n.state, Trace(n))
  {
    forall p | IsCoStarPath(db, source, p) && Last(source, p) == n.state
      ensures |Trace(n)| <= |p|
    {
      FreshBeatsPath(db, source, n, p);
    }
  }

  lemma FreshBeatsPath(db: Db, source: PersonId, n: Node, p: seq<Link>)
    requires Fresh(db, source, n)
    requires IsCoStarPath(db, source, p) && Last(source, p) == n.state
    ensures Depth(n) <= |p|
  {
    PathEndIsReached(db, source, p);
    if |p| < Depth(n) {
      ReachGrows(db, source, |p|, Depth(n) - 1);
    }
  }

  /** Every person a co-star path reaches from a known person is known, so
      on a well-formed database looking up their neighbours cannot fail. */
  lemma KnownSourceNeverMisses(db: Db, source: PersonId, path: seq<Link>)
    requires IsCoStarPath(db, source, path)
    ensures WellFormed(db) && source in db.people ==> Neighbors(db, Last(source, path)).Success?
  {
    if WellFormed(db) && source in db.people {
      if |path| > 0 {
        var i := |path| - 1;
        assert Edge(db, Before(source, path, i), path[i].0, path[i].1);
      }
      NeighborsOfKnownPerson(db, Last(source, path));
    }
  }

  lemma PopKeeps(db: Db, source: PersonId, target: PersonId,
                 explored: set<PersonId>, frontier: seq<Node>)
    requires |frontier| > 0 && SearchState(db, source, target, explored, frontier)
    requires Layered(frontier, Depth(frontier[0]))
    ensures SearchState(db, source, target, explored + {frontier[0].state}, frontier[1..])
    ensures Layered(frontier[1..], Depth(frontier[0]))
    ensures explored + {frontier[0].state} + States(frontier[1..]) == explored + States(frontier)
    ensures frontier[0].state !in explored
  {
    StatesOfPop(frontier);
    assert forall n :: n in frontier[1..] ==> n in frontier;
  }

  lemma StatesOfPop(frontier: seq<Node>)
    requires |frontier| > 0 && Distinct(frontier)
    ensures States(frontier) == {frontier[0].state} + States(frontier[1..])
    ensures frontier[0].state !in States(frontier[1..])
    ensures Distinct(frontier[1..])
  {
    var rest := frontier[1..];
    assert forall n :: n in frontier <==> n == frontier[0] || n in rest;
    forall n | n in rest ensures n.state != frontier[0].state {
      var j :| 0 <= j < |rest| && rest[j] == n;
      assert frontier[j + 1] == n;
    }
  }

  lemma AddChildKeeps(db: Db, source: PersonId, target: PersonId,
                      explored: set<PersonId>, frontier: seq<Node>, h: nat, c: Node)
    requires SearchState(db, source, target, explored, frontier) && Layered(frontier, h)
    requires Chain(db, source, c) && Fresh(db, source, c) && Depth(c) == h + 1
    requires c.state !in explored + States(frontier) && c.state in AllStars(db) && c.state != target
    ensures SearchState(db, source, target, explored, frontier + [c])
    ensures Layered(frontier + [c], h)
    ensures States(frontier + [c]) == States(frontier) + {c.state}
  {
    StatesOfAppend(frontier, c);
    var f := frontier + [c];
    forall i, j | 0 <= i < j < |f| ensures f[i].state != f[j].state {
      if j == |frontier| {
        assert f[i] in frontier;
      }
    }
  }

  /** Once the popped node's neighbours are all explored or queued, the
      explored set (now holding the popped person) is closed again. */
  lemma ClosedAfterExpand(db: Db, explored: set<PersonId>, x: PersonId, links: set<Link>,
                          before: set<PersonId>, after: set<PersonId>)
    requires Closed(db, explored, before) && before <= after
    requires forall m, q :: Edge(db, x, m, q) ==> (m, q) in links
    requires forall m, q :: (m, q) in links ==> q in after
    ensures Closed(db, explored + {x}, after)
  {
  }

  /** The frontier's head layer is covered: everyone within its depth is
      explored or queued. Advancing to the next layer keeps this, because
      the old layer is then all explored and closed. */
  lemma CoverageAdvances(db: Db, source: PersonId, explored: set<PersonId>, frontier: seq<Node>, h: nat)
    requires |frontier| > 0 && Layered(frontier, h)
    requires forall n :: n in frontier ==> Fresh(db, source, n)
    requires Reach(db, source, h) <= explored + States(frontier)
    requires Closed(db, explored, explored + States(frontier))
    ensures Layered(frontier, Depth(frontier[0]))
    ensures Reach(db, source, Depth(frontier[0])) <= explored + States(frontier)
  {
    if Depth(frontier[0]) != h {
      assert forall i :: 0 <= i < |frontier| ==> Depth(frontier[i]) == h + 1;
      assert States(frontier) !! Reach(db, source, h) by {
        forall n | n in frontier ensures n.state !in Reach(db, source, h) {
          assert Fresh(db, source, n);
        }
      }
      forall q | q in Step(db, Reach(db, source, h)) ensures q in explored + States(frontier) {
        StepSource(db, Reach(db, source, h), q);
      }
    }
  }

  /** When the frontier has run dry, the explored set holds the source and
      is closed, so nobody outside it can be reached. */
  lemma NothingBeyond(db: Db, source: PersonId, explored: set<PersonId>, target: PersonId)
    requires source in explored && Closed(db, explored, explored) && target !in explored
    ensures forall p :: IsCoStarPath(db, source, p) ==> Last(source, p) != target
  {
    forall p | IsCoStarPath(db, source, p) ensures Last(source, p) != target {
      PathEndIsReached(db, source, p);
      ClosedSetHoldsReach(db, source, explored, |p|);
    }
  }

  // ---------------------------------------------------------------------
  // The search

  /** The `for` loop over the neighbours of the popped node `x`, in any
      order: each neighbour neither explored nor queued becomes a child; the
      first such child on the target ends the search, the others are queued. */
  method Expand(db: Db, source: PersonId, target: PersonId, x: Node, links: set<Link>,
                frontier: seq<Node>, explored: set<PersonId>)
    returns (found: Option<Node>, next: seq<Node>)
    requires Chain(db, source, x) && x.state in explored
    requires forall m, q :: (m, q) in links ==> Edge(db, x.state, m, q)
    requires SearchState(db, source, target, explored, frontier) && Layered(frontier, Depth(x))
    requires Reach(db, source, Depth(x)) <= explored + States(frontier)
    ensures found.Some? ==> && found.value.state == target && source != target
                            && Chain(db, source, found.value) && Fresh(db, source, found.value)
                            && Depth(found.value) == Depth(x) + 1
    ensures found.None? ==> && SearchState(db, source, target, explored, next)
                            && Layered(next, Depth(x))
                            && States(frontier) <= States(next)
                            && forall m, q :: (m, q) in links ==> q in explored + States(next)
  {
    next := frontier;
    var remaining := links;
    while remaining != {}
      invariant remaining <= links
      invariant SearchState(db, source, target, explored, next) && Layered(next, Depth(x))
      invariant States(frontier) <= States(next)
      invariant forall m, q :: (m, q) in links - remaining ==> q in explored + States(next)
      decreases remaining
    {
      var link :| link in remaining;
      remaining := remaining - {link};
      var (m, q) := link;
      if !ContainsState(next, q) && q !in explored {
        var child := Reached(q, x, m);
        ChildChain(db, source, x, m, q);
        if q == target {
          return Some(child), next;
        }
        assert q in AllStars(db);
        AddChildKeeps(db, source, target, explored, next, Depth(x), child);
        next := next + [child];
      }
    }
    found := None;
  }

  /** `shortest_path`: breadth-first search from `source`. A path it returns
      is a shortest co-star path to `target`; "no solution" means no co-star
      path reaches `target`; a failed lookup names a reachable person whose
      neighbours could not be listed, which a well-formed database rules out.
      As written, a search from a person to themselves never succeeds. */
  method ShortestPath(db: Db, source: PersonId, target: PersonId)
    returns (r: Result<seq<Link>, SearchError>)
    ensures r.Success? ==> Shortest(db, source, target, r.value) && |r.value| > 0
    ensures r.Success? ==> forall i :: 0 <= i < |r.value| ==> r.value[i].1 != source
    ensures r.Success? ==> forall i, j :: 0 <= i < j < |r.value| ==> r.value[i].1 != r.value[j].1
    ensures source == target ==> r.Failure?
    ensures r == Failure(NoSolution) && source != target ==>
              forall p :: IsCoStarPath(db, source, p) ==> Last(source, p) != target
    ensures r == Failure(MissingKey) ==>
              exists p :: IsCoStarPath(db, source, p) && Neighbors(db, Last(source, p)).Failure?
    ensures WellFormed(db) && source in db.people ==> r != Failure(MissingKey)
  {
    var frontier := [Start(source)];
    var explored: set<PersonId> := {};
    ghost var universe := {source} + AllStars(db);
    assert States(frontier) == {source} by {
      assert forall n :: n in frontier <==> n == Start(source);
    }
    while |frontier| > 0
      invariant SearchState(db, source, target, explored, frontier)
      invariant Closed(db, explored, explored + States(frontier))
      invariant |frontier| > 0 ==> Layered(frontier, Depth(frontier[0]))
      invariant |frontier| > 0 ==> Reach(db, source, Depth(frontier[0])) <= explored + States(frontier)
      decreases universe - explored
    {
      var node := frontier[0];
      ghost var covered := explored + States(frontier);
      PopKeeps(db, source, target, explored, frontier);
      frontier := frontier[1..];
      explored := explored + {node.state};
      var nb := Neighbors(db, node.state);
      if nb.Failure? {
        KnownSourceNeverMisses(db, source, Trace(node));
        return Failure(MissingKey);
      }
      var found, next := Expand(db, source, target, node, nb.value, frontier, explored);
      if found.Some? {
        FreshChainIsShortest(db, source, found.value);
        var path := Backtrack(found.value);
        ShortestIsSimple(db, source, target, path);
        return Success(path);
      }
      ClosedAfterExpand(db, explored - {node.state}, node.state, nb.value, covered, explored + States(next));
      frontier := next;
      if |frontier| > 0 {
        CoverageAdvances(db, source, explored, frontier, Depth(node));
      }
    }
    NothingBeyondOrSelf(db, source, explored, target);
    return Failure(NoSolution);
  }

  lemma NothingBeyondOrSelf(db: Db, source: PersonId, explored: set<PersonId>, target: PersonId)
    requires source in explored && Closed(db, explored, explored)
    requires source != target ==> target !in explored
    ensures source != target ==> forall p :: IsCoStarPath(db, source, p) ==> Last(source, p) != target
  {
    if source != target {
      NothingBeyond(db, source, explored, target);
    }
  }

  /** The search as its description promises it: a person is linked to
      themselves by the empty path; otherwise as `ShortestPath`. */
  method ShortestPathCorrected(db: Db, source: PersonId, target: PersonId)
    returns (r: Result<seq<Link>, SearchError>)
    ensures r.Success? ==> Shortest(db, source, target, r.value)
    ensures source == target ==> r == Success([])
    ensures r == Failure(NoSolution) ==>
              forall p :: IsCoStarPath(db, source, p) ==> Last(source, p) != target
    ensures r == Failure(MissingKey) ==>
              exists p :: IsCoStarPath(db, source, p) && Neighbors(db, Last(source, p)).Failure?
    ensures WellFormed(db) && source in db.people ==> r != Failure(MissingKey)
  {
    if source == target {
      return Success([]);
    }
    r := ShortestPath(db, source, target);
  }

  /** A one-person database. */
  function Solo(): Db {
    Db(map["ann" := {"1"}],
       map["1" := Person("Ann", "1970", {"10"})],
       map["10" := Movie("Film", "1990", {"1"})])
  }

  /** The search from a person to themselves: the empty path is a shortest
      path, yet the search as written reports failure. */
  method SelfSearchExample() returns (r: Result<seq<Link>, SearchError>)
    ensures Shortest(Solo(), "1", "1", []) && r == Failure(NoSolution)
  {
    r := ShortestPath(Solo(), "1", "1");
    assert WellFormed(Solo()) && "1" in Solo().people;
    assert r.error != MissingKey;
  }

  /** The dangling movie id that the loader as written leaves behind makes
      a later neighbour lookup for that person raise `KeyError`. */
  lemma DanglingIdBreaksNeighbors()
    ensures var db := LoadData([PersonRow("1", "Ann", "1970")], [], [StarRow("1", "99")]);
            Neighbors(db, "1") == Failure(MissingKey)
  {
    DanglingMovieId();
  }

  /** Three people chained by two films: A and B star in m1, B and C in m2. */
  function Chain3(): Db {
    Db(map["a" := {"A"}, "b" := {"B"}, "c" := {"C"}],
       map["A" := Person("A", "1950", {"m1"}),
           "B" := Person("B", "1960", {"m1", "m2"}),
           "C" := Person("C", "1970", {"m2"})],
       map["m1" := Movie("One", "1990", {"A", "B"}),
           "m2" := Movie("Two", "2000", {"B", "C"})])
  }

  /** The two links through B: the path from A to C on `Chain3`. */
  function ViaB(): seq<Link> {
    [("m1", "B"), ("m2", "C")]
  }

  lemma Chain3Facts()
    ensures WellFormed(Chain3()) && "A" in Chain3().people
    ensures IsCoStarPath(Chain3(), "A", ViaB()) && Last("A", ViaB()) == "C"
  {
    var db, two := Chain3(), ViaB();
    assert Edge(db, Before("A", two, 0), two[0].0, two[0].1);
    assert Edge(db, Before("A", two, 1), two[1].0, two[1].1);
  }

  /** The only co-star path of at most two links from A to C on `Chain3`
      that never returns to A is the one through B. */
  lemma Chain3Unique(p: seq<Link>)
    requires IsCoStarPath(Chain3(), "A", p) && Last("A", p) == "C" && 0 < |p| <= 2
    requires forall i :: 0 <= i < |p| ==> p[i].1 != "A"
    ensures p == ViaB()
  {
    var db := Chain3();
    assert Edge(db, Before("A", p, 0), p[0].0, p[0].1);
    assert p[0] == ("m1", "B");
    if |p| == 2 {
      assert Edge(db, Before("A", p, 1), p[1].0, p[1].1);
      assert p[1] == ("m2", "C");
    }
  }

  /** On the chain A—m1—B—m2—C the search from A to C returns the two
      links through B, the only shortest path. */
  method ChainExample() returns (r: Result<seq<Link>, SearchError>)
    ensures r == Success([("m1", "B"), ("m2", "C")])
  {
    r := ShortestPath(Chain3(), "A", "C");
    Chain3Facts();
    assert r != Failure(MissingKey);
    assert r != Failure(NoSolution);
    assert r.Failure? ==> r.error == NoSolution || r.error == MissingKey;
    assert |r.value| <= |ViaB()|;
    Chain3Unique(r.value);
  }
}

=== FILE: minimax.dfy ===
/** Exhaustive minimax over the tic-tac-toe game tree: the value of a board
    for the maximising side X and the minimising side O, and the choice of an
    optimal move. */
module Minimax {
  import opened Wrappers
  import opened TicTacToe

  /** The board after a legal move. */
  function Child(b: Board, a: Action): (c: Board)
    requires a in Actions(b)
    ensures Count(c, Empty) == Count(b, Empty) - 1
  {
    Play(b, a).value
  }

  /** The largest element of a non-empty sequence (`max_value` folds Python's
      `max` from a -infinity seed; over a non-empty sequence that is the same). */
  function SeqMax(vs: seq<int>): (v: int)
    requires |vs| > 0
    ensures v in vs
    ensures forall k :: 0 <= k < |vs| ==> vs[k] <= v
  {
    if |vs| == 1 then vs[0]
    else
      var rest := SeqMax(vs[1..]);
      if vs[0] >= rest then vs[0] else rest
  }

  /** The smallest element of a non-empty sequence (`min_value` folds Python's
      `min` from a +infinity seed). */
  function SeqMin(vs: seq<int>): (v: int)
    requires |vs| > 0
    ensures v in vs
    ensures forall k :: 0 <= k < |vs| ==> v <= vs[k]
  {
    if |vs| == 1 then vs[0]
    else
      var rest := SeqMin(vs[1..]);
      if vs[0] <= rest then vs[0] else rest
  }

  /** Every legal move of a board still in play appears in the scan the
      model folds over, and the scan holds only legal moves. */
  lemma ScanIsActions(b: Board)
    requires !Terminal(b)
    ensures |ScanEmpty(b, 9)| > 0
    ensures forall a :: a in Actions(b) <==> a in ScanEmpty(b, 9)
  {
  }

  /** `max_value`: the game value of `b` when X is to move. */
  function MaxValue(b: Board): (v: int)
    ensures -1 <= v <= 1
    ensures Terminal(b) ==> Utility(b) == Some(v)
    decreases Count(b, Empty), 1
  {
    if Terminal(b) then Utility(b).value else SeqMax(ChildMins(b))
  }

  /** `min_value`: the game value of `b` when O is to move. */
  function MinValue(b: Board): (v: int)
    ensures -1 <= v <= 1
    ensures Terminal(b) ==> Utility(b) == Some(v)
    decreases Count(b, Empty), 1
  {
    if Terminal(b) then Utility(b).value else SeqMin(ChildMaxes(b))
  }

  /** `min_value` of every child, in scan order. */
  function ChildMins(b: Board): (vs: seq<int>)
    requires !Terminal(b)
    ensures |vs| == |ScanEmpty(b, 9)| > 0
    ensures forall k :: 0 <= k < |vs| ==> -1 <= vs[k] <= 1
    ensures forall k :: 0 <= k < |vs| ==> vs[k] == MinValue(Child(b, ScanEmpty(b, 9)[k]))
    decreases Count(b, Empty), 0
  {
    var scan := ScanEmpty(b, 9);
    ScanIsActions(b);
    seq(|scan|, k requires 0 <= k < |scan| => MinValue(Child(b, scan[k])))
  }

  /** `max_value` of every child, in scan order. */
  function ChildMaxes(b: Board): (vs: seq<int>)
    requires !Terminal(b)
    ensures |vs| == |ScanEmpty(b, 9)| > 0
    ensures forall k :: 0 <= k < |vs| ==> -1 <= vs[k] <= 1
    ensures forall k :: 0 <= k < |vs| ==> vs[k] == MaxValue(Child(b, ScanEmpty(b, 9)[k]))
    decreases Count(b, Empty), 0
  {
    var scan := ScanEmpty(b, 9);
    ScanIsActions(b);
    seq(|scan|, k requires 0 <= k < |scan| => MaxValue(Child(b, scan[k])))
  }

  /** On a board still in play, `MaxValue` is the maximum of `MinValue` over
      all children. */
  lemma MaxValueIsBestChild(b: Board)
    requires !Terminal(b)
    ensures forall a :: a in Actions(b) ==> MinValue(Child(b, a)) <= MaxValue(b)
    ensures exists a :: a in Actions(b) && MinValue(Child(b, a)) == MaxValue(b)
  {
    forall a | a in Actions(b) ensures MinValue(Child(b, a)) <= MaxValue(b) {
      MaxBoundsChild(b, a);
    }
    MaxAttained(b);
  }

  lemma MaxBoundsChild(b: Board, a: Action)
    requires !Terminal(b) && a in Actions(b)
    ensures MinValue(Child(b, a)) <= MaxValue(b)
  {
    var scan := ScanEmpty(b, 9);
    ScanIsActions(b);
    var k :| 0 <= k < |scan| && scan[k] == a;
    assert ChildMins(b)[k] == MinValue(Child(b, a));
  }

  lemma MaxAttained(b: Board)
    requires !Terminal(b)
    ensures exists a :: a in Actions(b) && MinValue(Child(b, a)) == MaxValue(b)
  {
    var scan := ScanEmpty(b, 9);
    ScanIsActions(b);
    var vs := ChildMins(b);
    var k :| 0 <= k < |vs| && vs[k] == SeqMax(vs);
    assert scan[k] in Actions(b);
  }

  /** On a board still in play, `MinValue` is the minimum of `MaxValue` over
      all children. */
  lemma MinValueIsBestChild(b: Board)
    requires !Terminal(b)
    ensures forall a :: a in Actions(b) ==> MinValue(b) <= MaxValue(Child(b, a))
    ensures exists a :: a in Actions(b) && MaxValue(Child(b, a)) == MinValue(b)
  {
    forall a | a in Actions(b) ensures MinValue(b) <= MaxValue(Child(b, a)) {
      MinBoundsChild(b, a);
    }
    MinAttained(b);
  }

  lemma MinBoundsChild(b: Board, a: Action)
    requires !Terminal(b) && a in Actions(b)
    ensures MinValue(b) <= MaxValue(Child(b, a))
  {
    var scan := ScanEmpty(b, 9);
    ScanIsActions(b);
    var k :| 0 <= k < |scan| && scan[k] == a;
    assert ChildMaxes(b)[k] == MaxValue(Child(b, a));
  }

  lemma MinAttained(b: Board)
    requires !Terminal(b)
    ensures exists a :: a in Actions(b) && MaxValue(Child(b, a)) == MinValue(b)
  {
    var scan := ScanEmpty(b, 9);
    ScanIsActions(b);
    var vs := ChildMaxes(b);
    var k :| 0 <= k < |vs| && vs[k] == SeqMin(vs);
    assert scan[k] in Actions(b);
  }

  /** The value the side to move gets from playing `a`: X looks at the
      child's `MinValue`, O at the child's `MaxValue`. */
  function ChildValue(b: Board, a: Action): int
    requires a in Actions(b)
  {
    if Player(b) == X then MinValue(Child(b, a)) else MaxValue(Child(b, a))
  }

  /** Whether the side `m` likes value `u` at least as much as `v`. */
  predicate AtLeastAsGood(m: Mark, u: int, v: int) {
    if m == X then u >= v else u <= v
  }

  /** The position of the first value in `vs` that is best for side `m`:
      the head of the stable `sorted` by value in `minimax`. */
  function FirstBest(m: Mark, vs: seq<int>): (i: nat)
    requires |vs| > 0
    ensures i < |vs|
    ensures forall k :: 0 <= k < |vs| ==> AtLeastAsGood(m, vs[i], vs[k])
    ensures forall k :: 0 <= k < i ==> vs[k] != vs[i]
  {
    if |vs| == 1 then 0
    else
      var rest := 1 + FirstBest(m, vs[1..]);
      if AtLeastAsGood(m, vs[0], vs[rest]) then 0 else rest
  }

  /** The `plays` list of `minimax`: for X the `min_value` of every child,
      for O the `max_value`, one entry per legal move in scan order. */
  function Plays(b: Board): (vs: seq<int>)
    requires !Terminal(b)
    ensures |vs| == |ScanEmpty(b, 9)| > 0
    ensures forall k :: 0 <= k < |vs| ==> vs[k] == ChildValue(b, ScanEmpty(b, 9)[k])
    ensures forall a :: a in Actions(b) ==>
              exists k :: 0 <= k < |vs| && ScanEmpty(b, 9)[k] == a && vs[k] == ChildValue(b, a)
  {
    ScanIsActions(b);
    if Player(b) == X then ChildMins(b) else ChildMaxes(b)
  }

  /** `minimax`: no move on a finished board; otherwise a legal move whose
      child value is optimal for the side to move. */
  function Minimax(b: Board): (r: Option<Action>)
    ensures r.None? <==> Terminal(b)
    ensures r.Some? ==> r.value in Actions(b)
    ensures r.Some? && Player(b) == X ==>
      && MinValue(Child(b, r.value)) == MaxValue(b)
      && forall a :: a in Actions(b) ==> MinValue(Child(b, a)) <= MinValue(Child(b, r.value))
    ensures r.Some? && Player(b) == O ==>
      && MaxValue(Child(b, r.value)) == MinValue(b)
      && forall a :: a in Actions(b) ==> MaxValue(Child(b, r.value)) <= MaxValue(Child(b, a))
  {
    if Terminal(b) then None
    else
      ScanIsActions(b);
      var i := FirstBest(Player(b), Plays(b));
      BestIsOptimal(b);
      Some(ScanEmpty(b, 9)[i])
  }

  /** The move heading the sorted plays is optimal for the side to move. */
  lemma BestIsOptimal(b: Board)
    requires !Terminal(b)
    ensures var best := ScanEmpty(b, 9)[FirstBest(Player(b), Plays(b))];
      && best in Actions(b)
      && (Player(b) == X ==>
            && MinValue(Child(b, best)) == MaxValue(b)
            && forall a :: a in Actions(b) ==> MinValue(Child(b, a)) <= MinValue(Child(b, best)))
      && (Player(b) == O ==>
            && MaxValue(Child(b, best)) == MinValue(b)
            && forall a :: a in Actions(b) ==> MaxValue(Child(b, best)) <= MaxValue(Child(b, a)))
  {
    ScanIsActions(b);
    var i := FirstBest(Player(b), Plays(b));
    forall a | a in Actions(b) ensures AtLeastAsGood(Player(b), Plays(b)[i], ChildValue(b, a)) {
      PlaysCoverActions(b, a);
    }
    MaxValueIsBestChild(b);
    MinValueIsBestChild(b);
  }

  /** The best of the plays is at least as good as every legal move. */
  lemma PlaysCoverActions(b: Board, a: Action)
    requires !Terminal(b) && a in Actions(b)
    ensures AtLeastAsGood(Player(b), Plays(b)[FirstBest(Player(b), Plays(b))], ChildValue(b, a))
  {
    ScanIsActions(b);
    var scan := ScanEmpty(b, 9);
    var k :| 0 <= k < |scan| && scan[k] == a;
    assert Plays(b)[k] == ChildValue(b, a);
  }
}

=== FILE: movies.dfy ===
/** The in-memory movie database of the degrees program and the map-building
    part of `load_data`, as folds over rows that are already parsed. */
module Movies {

  type PersonId = string
  type MovieId = string

  /** A person record; `movies` is filled in by the star rows. */
  datatype Person = Person(name: string, birth: string, movies: set<MovieId>)

  /** A movie record; `stars` is filled in by the star rows. */
  datatype Movie = Movie(title: string, year: string, stars: set<PersonId>)

  /** The three indices: lower-cased name to ids, id to person, id to movie. */
  datatype Db = Db(names: map<string, set<PersonId>>, people: map<PersonId, Person>, movies: map<MovieId, Movie>)

  datatype PersonRow = PersonRow(id: PersonId, name: string, birth: string)
  datatype MovieRow = MovieRow(id: MovieId, title: string, year: string)
  datatype StarRow = StarRow(personId: PersonId, movieId: MovieId)

  const EmptyDb: Db := Db(map[], map[], map[])

  /** ASCII lower-casing of one character. */
  function LowerChar(c: char): char {
    if 'A' <= c <= 'Z' then (c as int + 32) as char else c
  }

  /** The key the name index uses for a name. */
  function Lower(s: string): (r: string)
    ensures |r| == |s|
    ensures forall i :: 0 <= i < |s| ==> r[i] == LowerChar(s[i])
  {
    if |s| == 0 then [] else [LowerChar(s[0])] + Lower(s[1..])
  }

  /** `id` is filed under key `k` of a name index. */
  predicate Indexed(names: map<string, set<PersonId>>, k: string, id: PersonId) {
    k in names && id in names[k]
  }

  /** Some row of `rows` has id `id` and a name whose key is `k`. */
  ghost predicate NamedIn(rows: seq<PersonRow>, k: string, id: PersonId) {
    exists i :: 0 <= i < |rows| && rows[i].id == id && Lower(rows[i].name) == k
  }

  predicate HasPersonRow(rows: seq<PersonRow>, id: PersonId) {
    exists i :: 0 <= i < |rows| && rows[i].id == id
  }

  predicate HasMovieRow(rows: seq<MovieRow>, id: MovieId) {
    exists i :: 0 <= i < |rows| && rows[i].id == id
  }

  /** A star row for exactly this person and movie occurs in `rows`. */
  predicate Listed(rows: seq<StarRow>, p: PersonId, m: MovieId) {
    StarRow(p, m) in rows
  }

  // ---------------------------------------------------------------------
  // people.csv

  /** One people row: the record is (re)created with no movies, and the id
      is added to the set under the lower-cased name. */
  function AddPerson(db: Db, row: PersonRow): (r: Db)
    ensures r.movies == db.movies
    ensures r.people == db.people[row.id := Person(row.name, row.birth, {})]
    ensures forall k, id :: Indexed(r.names, k, id)
                        <==> Indexed(db.names, k, id) || (k == Lower(row.name) && id == row.id)
  {
    var key := Lower(row.name);
    var ids := if key !in db.names then {row.id} else db.names[key] + {row.id};
    db.(people := db.people[row.id := Person(row.name, row.birth, {})],
        names := db.names[key := ids])
  }

  /** The people rows, folded left to right. */
  function LoadPeople(db: Db, rows: seq<PersonRow>): (r: Db)
    ensures r.movies == db.movies
    ensures forall id :: id in r.people <==> id in db.people || HasPersonRow(rows, id)
    ensures forall id :: id in r.people ==>
              r.people[id].movies == (if HasPersonRow(rows, id) then {} else db.people[id].movies)
    ensures forall k, id :: Indexed(r.names, k, id) <==> Indexed(db.names, k, id) || NamedIn(rows, k, id)
  {
    if |rows| == 0 then db
    else
      var init := rows[..|rows| - 1];
      var last := rows[|rows| - 1];
      var before := LoadPeople(db, init);
      assert forall id :: HasPersonRow(rows, id) <==> HasPersonRow(init, id) || last.id == id by {
        forall id | HasPersonRow(rows, id) ensures HasPersonRow(init, id) || last.id == id {
          var i :| 0 <= i < |rows| && rows[i].id == id;
          if i < |rows| - 1 {
            assert init[i] == rows[i];
          }
        }
        forall id | HasPersonRow(init, id) ensures HasPersonRow(rows, id) {
          var i :| 0 <= i < |init| && init[i].id == id;
          assert rows[i] == init[i];
        }
      }
      assert forall k, id :: NamedIn(rows, k, id) <==> NamedIn(init, k, id) || (k == Lower(last.name) && id == last.id) by {
        forall k, id | NamedIn(rows, k, id) ensures NamedIn(init, k, id) || (k == Lower(last.name) && id == last.id) {
          var i :| 0 <= i < |rows| && rows[i].id == id && Lower(rows[i].name) == k;
          if i < |rows| - 1 {
            assert init[i] == rows[i];
          }
        }
        forall k, id | NamedIn(init, k, id) ensures NamedIn(rows, k, id) {
          var i :| 0 <= i < |init| && init[i].id == id && Lower(init[i].name) == k;
          assert rows[i] == init[i];
        }
        forall k, id | k == Lower(last.name) && id == last.id ensures NamedIn(rows, k, id) {
          assert rows[|rows| - 1] == last;
        }
      }
      AddPerson(before, last)
  }

  // ---------------------------------------------------------------------
  // movies.csv

  /** One movies row: the record is (re)created with no stars. */
  function AddMovie(db: Db, row: MovieRow): (r: Db)
    ensures r.names == db.names && r.people == db.people
    ensures r.movies.Keys == db.movies.Keys + {row.id}
    ensures r.movies[row.id].stars == {}
    ensures forall id :: id in db.movies && id != row.id ==> r.movies[id] == db.movies[id]
  {
    db.(movies := db.movies[row.id := Movie(row.title, row.year, {})])
  }

  /** The movies rows, folded left to right. */
  function LoadMovies(db: Db, rows: seq<MovieRow>): (r: Db)
    ensures r.names == db.names && r.people == db.people
    ensures forall id :: id in r.movies <==> id in db.movies || HasMovieRow(rows, id)
    ensures forall id :: id in r.movies ==>
              r.movies[id].stars == (if HasMovieRow(rows, id) then {} else db.movies[id].stars)
  {
    if |rows| == 0 then db
    else
      var init := rows[..|rows| - 1];
      var last := rows[|rows| - 1];
      assert forall id :: HasMovieRow(rows, id) <==> HasMovieRow(init, id) || last.id == id by {
        forall id | HasMovieRow(rows, id) ensures HasMovieRow(init, id) || last.id == id {
          var i :| 0 <= i < |rows| && rows[i].id == id;
          if i < |rows| - 1 {
            assert init[i] == rows[i];
          }
        }
        forall id | HasMovieRow(init, id) ensures HasMovieRow(rows, id) {
          var i :| 0 <= i < |init| && init[i].id == id;
          assert rows[i] == init[i];
        }
      }
      AddMovie(LoadMovies(db, init), last)
  }

  // ---------------------------------------------------------------------
  // stars.csv

  /** One stars row as `load_data` in `degrees.py` runs it: an unknown person raises at the
      first lookup and changes nothing; a known person gets the movie id
      even when the movie is unknown, since the second lookup raises only
      after the first update; when both are known both sets grow. */
  function AddStar(db: Db, row: StarRow): (r: Db)
    ensures r.names == db.names && r.people.Keys == db.people.Keys && r.movies.Keys == db.movies.Keys
    ensures row.personId !in db.people ==> r == db
    ensures row.personId in db.people ==>
              r.people[row.personId].movies == db.people[row.personId].movies + {row.movieId}
    ensures forall p :: p in db.people && p != row.personId ==> r.people[p] == db.people[p]
    ensures row.personId in db.people && row.movieId in db.movies ==>
              r.movies[row.movieId].stars == db.movies[row.movieId].stars + {row.personId}
    ensures forall m :: m in db.movies && (m != row.movieId || row.personId !in db.people) ==>
              r.movies[m] == db.movies[m]
    ensures forall p, m :: p in r.people ==>
              (m in r.people[p].movies <==> m in db.people[p].movies || row == StarRow(p, m))
    ensures forall p, m :: m in r.movies ==>
              (p in r.movies[m].stars <==> p in db.movies[m].stars || (p in db.people && row == StarRow(p, m)))
  {
    if row.personId !in db.people then db
    else
      var p := db.people[row.personId];
      var db1 := db.(people := db.people[row.personId := p.(movies := p.movies + {row.movieId})]);
      if row.movieId !in db1.movies then db1
      else
        var mv := db1.movies[row.movieId];
        db1.(movies := db1.movies[row.movieId := mv.(stars := mv.stars + {row.personId})])
  }

  /** Every star of a known movie is a known person. */
  ghost predicate StarsKnown(db: Db) {
    forall m, p :: m in db.movies && p in db.movies[m].stars ==> p in db.people
  }

  /** Every movie of a known person is a known movie. */
  ghost predicate MoviesKnown(db: Db) {
    forall p, m :: p in db.people && m in db.people[p].movies ==> m in db.movies
  }

  /** The two directions of the star relation agree on known people and movies. */
  ghost predicate Symmetric(db: Db) {
    forall p, m :: p in db.people && m in db.movies ==>
      (m in db.people[p].movies <==> p in db.movies[m].stars)
  }

  /** A database the search can expand everywhere without a failed lookup. */
  ghost predicate WellFormed(db: Db) {
    StarsKnown(db) && MoviesKnown(db) && Symmetric(db)
  }

  /** A stars row keeps every star a known person and keeps the two
      directions of the star relation in agreement. */
  lemma AddStarKeepsInvariants(db: Db, row: StarRow)
    ensures StarsKnown(db) ==> StarsKnown(AddStar(db, row))
    ensures Symmetric(db) ==> Symmetric(AddStar(db, row))
  {
  }

  lemma ListedSplit(rows: seq<StarRow>)
    requires |rows| > 0
    ensures forall p, m :: Listed(rows, p, m) <==> Listed(rows[..|rows| - 1], p, m) || rows[|rows| - 1] == StarRow(p, m)
  {
    assert rows == rows[..|rows| - 1] + [rows[|rows| - 1]];
  }

  /** The stars rows, folded left to right as `load_data` does. */
  function LoadStars(db: Db, rows: seq<StarRow>): (r: Db)
    ensures r.names == db.names && r.people.Keys == db.people.Keys && r.movies.Keys == db.movies.Keys
    ensures forall p, m :: p in r.people ==>
              (m in r.people[p].movies <==> m in db.people[p].movies || Listed(rows, p, m))
    ensures forall p, m :: m in r.movies ==>
              (p in r.movies[m].stars <==> p in db.movies[m].stars || (p in db.people && Listed(rows, p, m)))
    ensures StarsKnown(db) ==> StarsKnown(r)
    ensures Symmetric(db) ==> Symmetric(r)
  {
    if |rows| == 0 then db
    else
      var before := LoadStars(db, rows[..|rows| - 1]);
      ListedSplit(rows);
      AddStarKeepsInvariants(before, rows[|rows| - 1]);
      AddStar(before, rows[|rows| - 1])
  }

  /** `load_data` without the file reading: people rows, then movies rows,
      then stars rows, starting from empty indices. */
  function LoadData(people: seq<PersonRow>, movies: seq<MovieRow>, stars: seq<StarRow>): (db: Db)
    ensures forall id :: id in db.people <==> HasPersonRow(people, id)
    ensures forall id :: id in db.movies <==> HasMovieRow(movies, id)
    ensures forall k, id :: Indexed(db.names, k, id) <==> NamedIn(people, k, id)
    ensures forall p, m :: p in db.people ==> (m in db.people[p].movies <==> Listed(stars, p, m))
    ensures forall p, m :: m in db.movies ==>
              (p in db.movies[m].stars <==> p in db.people && Listed(stars, p, m))
    ensures StarsKnown(db) && Symmetric(db)
  {
    LoadStars(LoadMovies(LoadPeople(EmptyDb, people), movies), stars)
  }

  /** A stars row naming a known person and an unknown movie leaves a
      dangling movie id in that person's record. */
  lemma DanglingMovieId()
    ensures var db := LoadData([PersonRow("1", "Ann", "1970")], [], [StarRow("1", "99")]);
            "1" in db.people && "99" in db.people["1"].movies && "99" !in db.movies && !MoviesKnown(db)
  {
    var db := LoadData([PersonRow("1", "Ann", "1970")], [], [StarRow("1", "99")]);
    assert HasPersonRow([PersonRow("1", "Ann", "1970")], "1");
    assert Listed([StarRow("1", "99")], "1", "99");
    assert !HasMovieRow([], "99");
  }

  // ---------------------------------------------------------------------
  // The loader that skips a malformed stars row entirely.

  /** One stars row, applied only when both ids are known. */
  function AddStarSkipping(db: Db, row: StarRow): (r: Db)
    ensures r.names == db.names && r.people.Keys == db.people.Keys && r.movies.Keys == db.movies.Keys
    ensures forall p, m :: p in r.people ==>
              (m in r.people[p].movies <==> m in db.people[p].movies || (m in db.movies && row == StarRow(p, m)))
    ensures forall p, m :: m in r.movies ==>
              (p in r.movies[m].stars <==> p in db.movies[m].stars || (p in db.people && row == StarRow(p, m)))
  {
    if row.personId in db.people && row.movieId in db.movies then AddStar(db, row) else db
  }

  lemma AddStarSkippingKeepsWellFormed(db: Db, row: StarRow)
    ensures WellFormed(db) ==> WellFormed(AddStarSkipping(db, row))
  {
    if WellFormed(db) && row.personId in db.people && row.movieId in db.movies {
      AddStarKeepsInvariants(db, row);
    }
  }

  /** The stars rows with malformed rows skipped. */
  function LoadStarsSkipping(db: Db, rows: seq<StarRow>): (r: Db)
    ensures r.names == db.names && r.people.Keys == db.people.Keys && r.movies.Keys == db.movies.Keys
    ensures forall p, m :: p in r.people ==>
              (m in r.people[p].movies <==> m in db.people[p].movies || (m in db.movies && Listed(rows, p, m)))
    ensures forall p, m :: m in r.movies ==>
              (p in r.movies[m].stars <==> p in db.movies[m].stars || (p in db.people && Listed(rows, p, m)))
    ensures WellFormed(db) ==> WellFormed(r)
  {
    if |rows| == 0 then db
    else
      var before := LoadStarsSkipping(db, rows[..|rows| - 1]);
      ListedSplit(rows);
      AddStarSkippingKeepsWellFormed(before, rows[|rows| - 1]);
      AddStarSkipping(before, rows[|rows| - 1])
  }

  /** `load_data` with malformed stars rows skipped: a person's movies are
      the known movies the stars rows pair them with, and the result is well
      formed. */
  function LoadDataSkipping(people: seq<PersonRow>, movies: seq<MovieRow>, stars: seq<StarRow>): (db: Db)
    ensures forall id :: id in db.people <==> HasPersonRow(people, id)
    ensures forall id :: id in db.movies <==> HasMovieRow(movies, id)
    ensures forall k, id :: Indexed(db.names, k, id) <==> NamedIn(people, k, id)
    ensures forall p, m :: p in db.people ==>
              (m in db.people[p].movies <==> HasMovieRow(movies, m) && Listed(stars, p, m))
    ensures forall p, m :: m in db.movies ==>
              (p in db.movies[m].stars <==> p in db.people && Listed(stars, p, m))
    ensures WellFormed(db)
  {
    var bare := LoadMovies(LoadPeople(EmptyDb, people), movies);
    BareIsWellFormed(bare);
    LoadStarsSkipping(bare, stars)
  }

  /** Indices with no star pairs at all are well formed. */
  lemma BareIsWellFormed(db: Db)
    requires forall p :: p in db.people ==> db.people[p].movies == {}
    requires forall m :: m in db.movies ==> db.movies[m].stars == {}
    ensures WellFormed(db)
  {
  }
}

=== FILE: tictactoe.dfy ===
/** The tic-tac-toe game state: the board, whose turn it is, the legal moves,
    applying a move, and the winner / terminal / utility classification. */
module TicTacToe {
  import opened Wrappers

  /** The two marks a player can place. */
  datatype Mark = X | O

  /** A square of the board: empty, or holding a mark. */
  datatype Cell = Empty | Filled(mark: Mark)

  predicate IsGrid(g: seq<seq<Cell>>) {
    |g| == 3 && forall r :: 0 <= r < 3 ==> |g[r]| == 3
  }

  /** A 3x3 grid of cells, indexed `b[row][col]`. */
  type Board = g: seq<seq<Cell>> | IsGrid(g)
    witness [[Empty, Empty, Empty], [Empty, Empty, Empty], [Empty, Empty, Empty]]

  /** A move is a (row, col) pair; it is legal only on an empty square. */
  type Action = (int, int)

  predicate OnBoard(a: Action) {
    0 <= a.0 < 3 && 0 <= a.1 < 3
  }

  /** The cell at `a`; positions off the board read as empty. */
  function At(b: Board, a: Action): Cell {
    if OnBoard(a) then b[a.0][a.1] else Empty
  }

  /** Position of `a` in the row-major scan that the nested loops of `tictactoe.py` perform. */
  function Flat(a: Action): int {
    3 * a.0 + a.1
  }

  /** The `k`-th square of the row-major scan. */
  function Coord(k: int): (a: Action)
    requires 0 <= k < 9
    ensures OnBoard(a) && Flat(a) == k
  {
    if k < 3 then (0, k) else if k < 6 then (1, k - 3) else (2, k - 6)
  }

  lemma CoordOfFlat(a: Action)
    requires OnBoard(a)
    ensures Coord(Flat(a)) == a
  {
  }

  /** `b` with the square `a` replaced by `v`. */
  function Put(b: Board, a: Action, v: Cell): Board
    requires OnBoard(a)
  {
    b[a.0 := b[a.0][a.1 := v]]
  }

  /** Which squares a counting scan looks at. */
  datatype Selection = AllSquares | MainDiagonal | AntiDiagonal

  predicate Selected(s: Selection, a: Action) {
    match s
    case AllSquares => true
    case MainDiagonal => a.0 == a.1
    case AntiDiagonal => 3 - a.0 - 1 == a.1
  }

  /** The number of selected squares holding `c` among the first `i` squares
      of the row-major scan. */
  function CountUpTo(b: Board, c: Cell, s: Selection, i: nat): (n: nat)
    requires i <= 9
    ensures n <= i
  {
    if i == 0 then 0
    else
      CountUpTo(b, c, s, i - 1) + Hit(b, c, s, Coord(i - 1))
  }

  /** One if the square `a` is selected and holds `c`, else zero. */
  function Hit(b: Board, c: Cell, s: Selection, a: Action): nat {
    if Selected(s, a) && At(b, a) == c then 1 else 0
  }

  /** The number of squares of the board holding `c`. */
  function Count(b: Board, c: Cell): nat {
    CountUpTo(b, c, AllSquares, 9)
  }

  /** Replacing one square changes a count by what left and what arrived. */
  lemma {:induction false} CountAfterPut(b: Board, a: Action, v: Cell, c: Cell, s: Selection, i: nat)
    requires OnBoard(a) && i <= 9
    ensures CountUpTo(Put(b, a, v), c, s, i)
              + (if Flat(a) < i && Selected(s, a) && At(b, a) == c then 1 else 0)
            == CountUpTo(b, c, s, i)
              + (if Flat(a) < i && Selected(s, a) && v == c then 1 else 0)
  {
    if i > 0 {
      CountAfterPut(b, a, v, c, s, i - 1);
      var k := Coord(i - 1);
      PutAt(b, a, v, k);
      CoordOfFlat(a);
      assert Flat(a) == i - 1 <==> k == a;
      if k == a {
        assert Hit(Put(b, a, v), c, s, k) == (if Selected(s, a) && v == c then 1 else 0);
      } else {
        assert Hit(Put(b, a, v), c, s, k) == Hit(b, c, s, k);
      }
    }
  }

  lemma PutAt(b: Board, a: Action, v: Cell, k: Action)
    requires OnBoard(a) && OnBoard(k)
    ensures At(Put(b, a, v), k) == if k == a then v else At(b, k)
  {
  }

  // ---------------------------------------------------------------------
  // initial_state, player, actions, result

  /** The board the game starts from. */
  function InitialState(): (b: Board)
    ensures forall a :: At(b, a) == Empty
  {
    [[Empty, Empty, Empty], [Empty, Empty, Empty], [Empty, Empty, Empty]]
  }

  function Opponent(m: Mark): Mark {
    if m == X then O else X
  }

  /** The side to move: O exactly when X has placed more marks, otherwise X.
      That is the side with no more marks than the other, X on a tie. */
  function Player(b: Board): (m: Mark)
    ensures Count(b, Filled(m)) <= Count(b, Filled(Opponent(m)))
    ensures Count(b, Filled(X)) == Count(b, Filled(O)) ==> m == X
    ensures Balanced(b) ==> (m == X <==> Count(b, Filled(X)) == Count(b, Filled(O)))
  {
    if Count(b, Filled(X)) > Count(b, Filled(O)) then O else X
  }

  /** The mark counts of a board reachable by alternating play from the
      initial state: X has the same number of marks as O, or one more. */
  predicate Balanced(b: Board) {
    Count(b, Filled(X)) == Count(b, Filled(O)) || Count(b, Filled(X)) == Count(b, Filled(O)) + 1
  }

  /** The empty squares among the first `i` of the row-major scan, in scan order. */
  function ScanEmpty(b: Board, i: nat): (s: seq<Action>)
    requires i <= 9
    ensures forall a :: a in s <==> OnBoard(a) && Flat(a) < i && At(b, a) == Empty
    ensures forall j, k :: 0 <= j < k < |s| ==> Flat(s[j]) < Flat(s[k])
    ensures |s| == CountUpTo(b, Empty, AllSquares, i)
  {
    if i == 0 then []
    else
      var a := Coord(i - 1);
      var prefix := ScanEmpty(b, i - 1);
      if At(b, a) == Empty then prefix + [a] else prefix
  }

  /** Sequences whose squares come in strictly increasing scan order have no repeats. */
  lemma {:induction false} IncreasingHasNoRepeats(s: seq<Action>)
    requires forall j, k :: 0 <= j < k < |s| ==> Flat(s[j]) < Flat(s[k])
    ensures |set a | a in s| == |s|
  {
    if |s| > 0 {
      var init := s[..|s| - 1];
      IncreasingHasNoRepeats(init);
      var last := s[|s| - 1];
      assert last !in init by {
        forall j | 0 <= j < |init| ensures init[j] != last {
          assert Flat(s[j]) < Flat(s[|s| - 1]);
        }
      }
      assert (set a | a in s) == (set a | a in init) + {last} by {
        assert s == init + [last];
      }
    }
  }

  /** The legal moves: exactly the empty squares of the board. */
  function Actions(b: Board): (moves: set<Action>)
    ensures forall a :: a in moves <==> OnBoard(a) && At(b, a) == Empty
    ensures |moves| == Count(b, Empty)
  {
    var scan := ScanEmpty(b, 9);
    IncreasingHasNoRepeats(scan);
    set a | a in scan
  }

  /** Why a move is refused. */
  datatype MoveError = InvalidAction

  /** The board after the side to move plays `a`; an illegal move fails. The
      input board is a value and is never changed. */
  function Play(b: Board, a: Action): (r: Result<Board, MoveError>)
    ensures r.Failure? <==> a !in Actions(b)
    ensures r.Success? ==> At(r.value, a) == Filled(Player(b))
    ensures r.Success? ==> forall a' :: a' != a ==> At(r.value, a') == At(b, a')
    ensures r.Success? ==> Count(r.value, Empty) == Count(b, Empty) - 1
    ensures r.Success? ==> Count(r.value, Filled(Player(b))) == Count(b, Filled(Player(b))) + 1
    ensures r.Success? ==> Count(r.value, Filled(Opponent(Player(b)))) == Count(b, Filled(Opponent(Player(b))))
  {
    if a !in Actions(b) then Failure(InvalidAction)
    else
      var p := Player(b);
      var next := Put(b, a, Filled(p));
      CountAfterPut(b, a, Filled(p), Empty, AllSquares, 9);
      CountAfterPut(b, a, Filled(p), Filled(p), AllSquares, 9);
      CountAfterPut(b, a, Filled(p), Filled(Opponent(p)), AllSquares, 9);
      Success(next)
  }

  /** The initial board: X moves first, its counts are balanced, and all
      nine squares are legal moves. */
  lemma InitialStateFacts()
    ensures Player(InitialState()) == X
    ensures Balanced(InitialState())
    ensures Count(InitialState(), Empty) == 9
    ensures Actions(InitialState()) == AllMoves
  {
    var b := InitialState();
    CountOnEmptyBoard(b, Filled(X), 9);
    CountOnEmptyBoard(b, Filled(O), 9);
    CountOnEmptyBoard(b, Empty, 9);
    InitialActions();
  }

  lemma InitialActions()
    ensures Actions(InitialState()) == AllMoves
  {
    EmptyBoardActions(InitialState());
  }

  lemma EmptyBoardActions(b: Board)
    requires forall a :: At(b, a) == Empty
    ensures Actions(b) == AllMoves
  {
    forall a ensures a in Actions(b) <==> a in AllMoves {
      OnBoardIsAllMoves(a);
    }
  }

  /** All nine squares of the board, as moves. */
  const AllMoves: set<Action> :=
    {(0, 0), (0, 1), (0, 2), (1, 0), (1, 1), (1, 2), (2, 0), (2, 1), (2, 2)}

  lemma OnBoardIsAllMoves(a: Action)
    ensures a in AllMoves <==> OnBoard(a)
  {
    if OnBoard(a) {
      assert a.0 == 0 || a.0 == 1 || a.0 == 2;
      assert a.1 == 0 || a.1 == 1 || a.1 == 2;
    }
  }

  lemma {:induction false} CountOnEmptyBoard(b: Board, c: Cell, i: nat)
    requires i <= 9 && forall a :: At(b, a) == Empty
    ensures CountUpTo(b, c, AllSquares, i) == (if c == Empty then i else 0)
  {
    if i > 0 {
      CountOnEmptyBoard(b, c, i - 1);
    }
  }

  /** On a board reached by alternating play, a legal move keeps the counts
      balanced while handing the turn to the other side. */
  lemma PlayAlternates(b: Board, a: Action)
    requires Balanced(b) && a in Actions(b)
    ensures Balanced(Play(b, a).value)
    ensures Player(Play(b, a).value) != Player(b)
  {
  }

  // ---------------------------------------------------------------------
  // winner, terminal, utility

  /** A line of three squares. */
  type Line = (Action, Action, Action)

  /** The eight lines of the board: three rows, three columns, two diagonals. */
  const Lines: seq<Line> := [
    ((0, 0), (0, 1), (0, 2)), ((1, 0), (1, 1), (1, 2)), ((2, 0), (2, 1), (2, 2)),
    ((0, 0), (1, 0), (2, 0)), ((0, 1), (1, 1), (2, 1)), ((0, 2), (1, 2), (2, 2)),
    ((0, 0), (1, 1), (2, 2)), ((0, 2), (1, 1), (2, 0))
  ]

  predicate Owns(b: Board, m: Mark, l: Line) {
    At(b, l.0) == Filled(m) && At(b, l.1) == Filled(m) && At(b, l.2) == Filled(m)
  }

  /** Reference definition of a win: `m` fills one of the eight lines. */
  predicate HasLine(b: Board, m: Mark) {
    exists k :: 0 <= k < |Lines| && Owns(b, m, Lines[k])
  }

  /** `checkRow`: tries the rows from `i` on and succeeds at the first one
      entirely `m`; exactly when one of the three row lines belongs to `m`. */
  predicate RowFrom(b: Board, m: Mark, i: nat): (r: bool)
    requires i <= 3
    ensures r <==> exists k :: i <= k < 3 && Owns(b, m, Lines[k])
    decreases 3 - i
  {
    if i == 3 then false
    else
      assert Lines[i] == ((i, 0), (i, 1), (i, 2)) by { assert i == 0 || i == 1 || i == 2; }
      (b[i][0] == Filled(m) && b[i][1] == Filled(m) && b[i][2] == Filled(m)) || RowFrom(b, m, i + 1)
  }

  predicate CheckRow(b: Board, m: Mark): (r: bool)
    ensures r <==> exists k :: 0 <= k < 3 && Owns(b, m, Lines[k])
  {
    RowFrom(b, m, 0)
  }

  /** `checkCol`: tries the columns from `i` on and succeeds at the first one
      entirely `m`; exactly when one of the three column lines belongs to `m`. */
  predicate ColFrom(b: Board, m: Mark, i: nat): (r: bool)
    requires i <= 3
    ensures r <==> exists k :: 3 + i <= k < 6 && Owns(b, m, Lines[k])
    decreases 3 - i
  {
    if i == 3 then false
    else
      assert Lines[3 + i] == ((0, i), (1, i), (2, i)) by { assert i == 0 || i == 1 || i == 2; }
      (b[0][i] == Filled(m) && b[1][i] == Filled(m) && b[2][i] == Filled(m)) || ColFrom(b, m, i + 1)
  }

  predicate CheckCol(b: Board, m: Mark): (r: bool)
    ensures r <==> exists k :: 3 <= k < 6 && Owns(b, m, Lines[k])
  {
    ColFrom(b, m, 0)
  }

  /** The scan's count of `c` along the main diagonal is the sum of the
      hits on its three squares. */
  lemma MainDiagonalCount(b: Board, c: Cell)
    ensures CountUpTo(b, c, MainDiagonal, 9)
         == Hit(b, c, MainDiagonal, (0, 0)) + Hit(b, c, MainDiagonal, (1, 1)) + Hit(b, c, MainDiagonal, (2, 2))
  {
    var h0, h1 := Hit(b, c, MainDiagonal, (0, 0)), Hit(b, c, MainDiagonal, (1, 1));
    assert CountUpTo(b, c, MainDiagonal, 1) == h0;
    assert CountUpTo(b, c, MainDiagonal, 2) == h0;
    assert CountUpTo(b, c, MainDiagonal, 3) == h0;
    assert CountUpTo(b, c, MainDiagonal, 4) == h0;
    assert CountUpTo(b, c, MainDiagonal, 5) == h0 + h1;
    assert CountUpTo(b, c, MainDiagonal, 6) == h0 + h1;
    assert CountUpTo(b, c, MainDiagonal, 7) == h0 + h1;
    assert CountUpTo(b, c, MainDiagonal, 8) == h0 + h1;
  }

  /** The scan's count of `c` along the anti-diagonal is the sum of the
      hits on its three squares. */
  lemma AntiDiagonalCount(b: Board, c: Cell)
    ensures CountUpTo(b, c, AntiDiagonal, 9)
         == Hit(b, c, AntiDiagonal, (0, 2)) + Hit(b, c, AntiDiagonal, (1, 1)) + Hit(b, c, AntiDiagonal, (2, 0))
  {
    var h0, h1 := Hit(b, c, AntiDiagonal, (0, 2)), Hit(b, c, AntiDiagonal, (1, 1));
    assert CountUpTo(b, c, AntiDiagonal, 1) == 0;
    assert CountUpTo(b, c, AntiDiagonal, 2) == 0;
    assert CountUpTo(b, c, AntiDiagonal, 3) == h0;
    assert CountUpTo(b, c, AntiDiagonal, 4) == h0;
    assert CountUpTo(b, c, AntiDiagonal, 5) == h0 + h1;
    assert CountUpTo(b, c, AntiDiagonal, 6) == h0 + h1;
    assert CountUpTo(b, c, AntiDiagonal, 8) == CountUpTo(b, c, AntiDiagonal, 7);
  }

  /** `checkFirstDig`: the scan counts three `m` squares with row == col,
      exactly when `m` fills the main diagonal. */
  predicate CheckFirstDig(b: Board, m: Mark): (r: bool)
    ensures r <==> Owns(b, m, Lines[6])
  {
    MainDiagonalCount(b, Filled(m));
    CountUpTo(b, Filled(m), MainDiagonal, 9) == 3
  }

  /** `checkSecondDig`: the scan counts three `m` squares with
      3 - row - 1 == col, exactly when `m` fills the anti-diagonal. */
  predicate CheckSecondDig(b: Board, m: Mark): (r: bool)
    ensures r <==> Owns(b, m, Lines[7])
  {
    AntiDiagonalCount(b, Filled(m));
    CountUpTo(b, Filled(m), AntiDiagonal, 9) == 3
  }

  predicate AnyCheck(b: Board, m: Mark) {
    CheckRow(b, m) || CheckCol(b, m) || CheckFirstDig(b, m) || CheckSecondDig(b, m)
  }

  /** The four checks of `tictactoe.py` together find a line exactly when
      `m` fills one of the eight lines. */
  lemma ChecksFindLines(b: Board, m: Mark)
    ensures AnyCheck(b, m) <==> HasLine(b, m)
  {
    if HasLine(b, m) {
      var k :| 0 <= k < |Lines| && Owns(b, m, Lines[k]);
      if k < 3 {
        assert CheckRow(b, m);
      } else if k < 6 {
        assert CheckCol(b, m);
      }
    }
  }

  /** The winner: X if X fills a line (X takes precedence), else O if O
      does, else nobody. */
  function Winner(b: Board): (w: Option<Mark>)
    ensures w == Some(X) <==> HasLine(b, X)
    ensures w == Some(O) <==> HasLine(b, O) && !HasLine(b, X)
    ensures w == None <==> !HasLine(b, X) && !HasLine(b, O)
  {
    ChecksFindLines(b, X);
    ChecksFindLines(b, O);
    if AnyCheck(b, X) then Some(X)
    else if AnyCheck(b, O) then Some(O)
    else None
  }

  /** The game is over when someone has won or no square is empty. */
  function Terminal(b: Board): (t: bool)
    ensures t <==> Winner(b).Some? || Actions(b) == {}
    ensures t <==> HasLine(b, X) || HasLine(b, O) || Count(b, Empty) == 0
  {
    if Winner(b) == Some(X) then true
    else if Winner(b) == Some(O) then true
    else
      var full := forall r, c :: 0 <= r < 3 && 0 <= c < 3 ==> b[r][c] != Empty;
      assert full <==> Actions(b) == {} by {
        if !full {
          var r, c :| 0 <= r < 3 && 0 <= c < 3 && b[r][c] == Empty;
          assert At(b, (r, c)) == Empty;
        }
      }
      full
  }

  /** The score of a finished game: 1 when X has won, -1 when O has won, 0
      on a draw; `None` (the implicit return of `utility`) when not finished. */
  function Utility(b: Board): (u: Option<int>)
    ensures u.Some? <==> Terminal(b)
    ensures u == Some(1) <==> HasLine(b, X)
    ensures u == Some(-1) <==> HasLine(b, O) && !HasLine(b, X)
    ensures u == Some(0) <==> Terminal(b) && !HasLine(b, X) && !HasLine(b, O)
  {
    if Terminal(b) then
      if Winner(b) == Some(X) then Some(1)
      else if Winner(b) == Some(O) then Some(-1)
      else Some(0)
    else None
  }

  /** A full board with no line is a finished draw. */
  lemma DrawExample()
    ensures var b := [[Filled(X), Filled(O), Filled(X)],
                      [Filled(X), Filled(O), Filled(O)],
                      [Filled(O), Filled(X), Filled(X)]];
            IsGrid(b) && Terminal(b) && Winner(b) == None && Utility(b) == Some(0)
  {
    var b: Board := [[Filled(X), Filled(O), Filled(X)],
                     [Filled(X), Filled(O), Filled(O)],
                     [Filled(O), Filled(X), Filled(X)]];
    forall m ensures !HasLine(b, m) {
      forall k | 0 <= k < |Lines| ensures !Owns(b, m, Lines[k]) {
      }
    }
    assert Actions(b) == {} by {
      forall a | OnBoard(a) ensures At(b, a) != Empty {
        assert a.0 == 0 || a.0 == 1 || a.0 == 2;
        assert a.1 == 0 || a.1 == 1 || a.1 == 2;
      }
    }
  }

  /** A row of X is a win for X with utility 1. */
  lemma XWinsExample()
    ensures var b := [[Filled(X), Filled(X), Filled(X)],
                      [Filled(O), Filled(O), Empty],
                      [Empty, Empty, Empty]];
            IsGrid(b) && Winner(b) == Some(X) && Terminal(b) && Utility(b) == Some(1)
  {
    var b: Board := [[Filled(X), Filled(X), Filled(X)],
                     [Filled(O), Filled(O), Empty],
                     [Empty, Empty, Empty]];
    assert Owns(b, X, Lines[0]);
  }
}

=== FILE: wrappers.dfy ===
/** Option and Result types shared by both halves of the model. */
module Wrappers {

  /** A value that may be missing; `None` plays the part of Python's `None`. */
  datatype Option<+T> = None | Some(value: T)

  /** Either a computed value or the error the Python code raises instead. */
  datatype Result<+T, +E> = Success(value: T) | Failure(error: E)
}
